=== FILE: README.md ===
# Escuta Aí — a Dafny model of the track-discovery core

Escuta Aí lets a user type a song name, pick the right version from a list
of candidate tracks, and then see similar tracks. Each similar track links
to a search on YouTube, Spotify and Apple Music. Three pieces of logic sit
under that flow, and this project models and proves properties of each:

1. **The browser client's discovery state machine** (`frontend/src/App.jsx`).
   It has five state variables: `query`, `searchResults`, `recommendations`,
   `selectedTrack` and `loading`. Two async actions drive them: `search` and
   `selectTrack`. Each action is split at its `await` into a *begin*
   transition and a *complete* transition. A begin transition makes the
   state updates that come before the request and returns the request. A
   complete transition applies `Ok(payload)` or `Err`. A pure `Render`
   function gives the page's render guards.
   Module `Discovery` holds the transitions. `DiscoveryView` holds the
   render guards. `Sessions` holds the runs and their invariants. `Links`
   holds the outbound links. `JsSemantics` holds the JavaScript semantics
   the client relies on: `trim`, truthiness and property access.
2. **The Go server's TTL cache and cache keys** (`backend/main.go`).
   Module `TtlCache` models a map from key to `(data, timestamp)`. Its
   freshness test is the strict `age < ttl`, and the clock reading is an
   explicit integer in nanoseconds. Module `Backend` models the two
   handlers: cache lookup, the upstream call on a miss, extraction, and
   caching of the extracted value.
3. **Extraction of the track list from the upstream response.** The server
   and the serverless handlers in `api/search.go` and `api/recommend.go`
   share this step. Module `Extract` does a total nested-field lookup over
   decoded JSON. A failed comma-ok type assertion yields a nil map, and
   indexing a nil map yields nil. So a missing or mis-typed level gives
   `null`, never a failure. Module `LastFm` builds the upstream URLs.
   Module `Api` models the serverless handlers.

`Json` defines one JSON datatype used by both sides. A Go nil interface and
JavaScript `null` are both `JNull`. The client's `Array.isArray` is
`JArr?`.

Three behaviours of the client code shape what the model can promise:

- No response is ever discarded as stale: every response is applied when it
  arrives, whichever request it answers. The invariants are therefore proved
  for *sequential* runs only. In a sequential run, each search or selection
  settles before the user starts the next one. Three counterexample lemmas
  show what happens in interleaved runs:
  - a stale search overwrites a newer one;
  - loading ends while a request is still pending;
  - a selection ends up shown together with candidates.
- A failed search keeps whatever candidates were on screen: the `catch`
  only logs. The landing display comes back only if there were none, as on
  the first search of a session, or on a search made from the
  recommendations view, where selecting a track had already cleared them
  (frontend/src/App.jsx:30).
- The candidate list has no `loading` guard (frontend/src/App.jsx:86). While
  a search runs, earlier candidates stay visible, and clickable, under the
  loading banner.

## Model

| member | source | states |
|---|---|---|
| `JsSemantics.Trim` | frontend/src/App.jsx:12 | `trim` is empty exactly when every character is JavaScript whitespace or a line terminator. Otherwise the result neither starts nor ends with one. |
| `JsSemantics.TrimKeepsMiddle` | frontend/src/App.jsx:12 | `trim` returns a contiguous slice of its input, and everything before and after that slice is whitespace. |
| `JsSemantics.Truthy` | frontend/src/App.jsx:111 | A decoded value is falsy exactly when it is `null`, `false`, `0` or `""`. Arrays and objects, empty ones included, are truthy, so `selectedTrack &&` and `!selectedTrack` test for a selection. |
| `Json.ArrayOrEmpty` | frontend/src/App.jsx:19 | `Array.isArray(data) ? data : []` keeps an array payload's items and turns any other payload into `[]`. |
| `JsSemantics.BlankIffAllWhitespace` | frontend/src/App.jsx:12 | A query is blank exactly when each of its characters is whitespace. |
| `JsSemantics.Member` | frontend/src/App.jsx:33-35 | On a non-null value, `track.artist` / `track.name` are defined exactly for an object that has that own field, and then equal it. Otherwise they are `undefined`. Access on `null` throws, so `null` is excluded. |
| `JsSemantics.OptionalMember` | frontend/src/App.jsx:146 | `artist?.name` is defined exactly when `artist` is an object with a `name` field, and then equals that field. A `null` or `undefined` `artist` gives `undefined`. |
| `Discovery.RequestUrl` | frontend/src/App.jsx:17-35 | The search URL carries the escaped query. The recommend URL carries the escaped artist first and the escaped track name second. |
| `Discovery.FetchedUrls` | frontend/src/App.jsx:12-35 | A search issues a request exactly when the query is not blank, and it fetches `/api/search?q=` with the query escaped as typed, not trimmed. Selecting a non-null track fetches `/api/recommend?artist=` and `&track=` with `track.artist` and `track.name` escaped. |
| `Discovery.EditQuery` | frontend/src/App.jsx:66 | Typing replaces the query and changes nothing else. |
| `Discovery.BeginSearch` | frontend/src/App.jsx:11-17 | A blank query changes no state and issues no request. Otherwise loading starts, recommendations and selection are cleared, candidates are left untouched, and the query is sent untrimmed. |
| `Discovery.CompleteSearch` | frontend/src/App.jsx:18-24 | An array payload becomes the candidates. A non-array payload gives `[]`. A failure leaves the candidates as they were. Loading always ends and nothing else changes. |
| `Discovery.BeginSelect` | frontend/src/App.jsx:27-44 | The track is selected, candidates are cleared and loading starts. The request carries `track.artist`, then `track.name`. A `null` track throws before the `await`, so there is no request, recommendations become `[]` and loading ends. |
| `Discovery.CompleteRecommend` | frontend/src/App.jsx:37-44 | An array payload becomes the recommendations. Any other payload, or a failure, gives `[]`. Loading ends and the selection is kept. |
| `Discovery.Apply` | frontend/src/App.jsx:66-94 | The page's event wiring: typing replaces the query and issues nothing, a settling request issues nothing and ends loading, and only a submit (Enter or the button) or a candidate click issues a request. A submit's request is a search for the query as typed, and a click's request is a recommendation with that track selected. |
| `Discovery.RunConcat` | frontend/src/App.jsx:66-94 | Applying two sequences of events one after the other equals applying their concatenation. |
| `DiscoveryView.Render` | frontend/src/App.jsx:80-191 | The selected-track panel never shows while loading. The landing panel excludes candidates, the panel and the banner. Inside the panel, the notice shows exactly when there are no recommendations, and otherwise the grid shows. |
| `DiscoveryView.LandingExactlyWhenEmpty` | frontend/src/App.jsx:191 | The landing panel shows exactly when nothing is loading, there are no candidates and no track is selected (truthy). |
| `DiscoveryView.SettledStateShowsOnePanel` | frontend/src/App.jsx:86-191 | Once loading ends in a state where a selection excludes candidates, exactly one of candidates, selected panel and landing shows. |
| `DiscoveryView.SettledSearchShowsLandingIffEmpty` | frontend/src/App.jsx:19-23 | After a successful search with no selection, landing shows exactly when the payload gave no candidates. |
| `DiscoveryView.FailedSearchKeepsCandidates` | frontend/src/App.jsx:20-23 | A failed search keeps the previous candidates on screen and does not fall back to landing while there are any. |
| `DiscoveryView.SettledRecommendShowsNoticeIffEmpty` | frontend/src/App.jsx:125-186 | After a recommendation request settles for a selected track, the panel shows. The "no recommendations" notice shows exactly when there is nothing to list. |
| `Sessions.SequentialStep` | frontend/src/App.jsx:11-45 | A sequential step is admitted exactly when it is an edit, a submit with nothing pending, a settling of the pending request, or a click on a listed candidate with nothing pending. An admitted step applies the same transition as an unrestricted one and leaves a request pending exactly when the transition issued one. |
| `Sessions.StepKeepsInv` | frontend/src/App.jsx:13-43 | Each sequential step preserves two facts: a selection implies no candidates, and loading holds exactly while a request is pending. |
| `Sessions.RunKeepsInv` | frontend/src/App.jsx:13-30 | Both invariants hold after every sequential run from a state that satisfies them. |
| `Sessions.SequentialRunIsRun` | frontend/src/App.jsx:11-45 | A sequential run reaches the same client state as the same events applied without restriction. |
| `Sessions.ReachableStatesAreConsistent` | frontend/src/App.jsx:80-191 | Every state a sequential run reaches from page load satisfies the invariants. Once loading ends, it shows exactly one main panel. |
| `Sessions.StaleSearchOverwritesNewer` | frontend/src/App.jsx:11-25 | Searching "a" then "b", with "a" settling last, leaves "a"'s candidates on screen under the query "b". |
| `Sessions.LoadingEndsWhileRequestPending` | frontend/src/App.jsx:13-23 | With two searches in flight, the first to settle turns loading off. |
| `Sessions.SelectionAndCandidatesTogether` | frontend/src/App.jsx:86-111 | Candidates stay visible and clickable during a second search. Picking one and letting the search settle shows the candidates and the selected panel at once. |
| `Sessions.CandidatesShownWhileSearching` | frontend/src/App.jsx:80-86 | Even in a sequential run, a new search shows the loading banner above the previous candidates. |
| `Links.SearchTerm` | frontend/src/App.jsx:146 | The term is the artist's `name` read with optional chaining, then a space, then the track's `name`. The first part is defined exactly when the track has an `artist` object with a `name` field, and then equals it. |
| `Links.CardLinks` | frontend/src/App.jsx:144-169 | A non-null card has three links, and a `null` one has none. Each link is its service's fixed prefix (YouTube `search_query=`, Spotify `/search/`, Apple Music `/br/search?term=`) followed by the same escaped term. |
| `Links.BillieJeanLinks` | frontend/src/App.jsx:145-169 | "Billie Jean" by Michael Jackson links to searches for "Michael Jackson" + " " + "Billie Jean" on all three services. |
| `TtlCache.Get` | backend/main.go:28-36 | Returns the stored data exactly when the key is present and `now - timestamp < ttl`. It returns no new cache, so an expired entry stays stored. |
| `TtlCache.Set` | backend/main.go:38-42 | Stores `(data, now)` under the key, adds only that key, and leaves every other entry as it was. |
| `TtlCache.GetAfterSet` | backend/main.go:28-42 | A stored value reads back unchanged while younger than the TTL, and reads as missing from then on. |
| `TtlCache.ExpiryIsStrict` | backend/main.go:32 | An entry exactly `ttl` old is a miss. One nanosecond younger is a hit. |
| `TtlCache.SetIsolatesKeys` | backend/main.go:41 | Storing under one key leaves what every other key reads unchanged. |
| `Backend.ServeCached` | backend/main.go:52-76 | A fresh hit replays the stored data with no upstream call and no cache change. A miss calls upstream once. A transport error is a 500 and writes nothing. Otherwise the extracted value, `null` included, is stored and returned. No key is ever dropped. |
| `Backend.ServeSearch` | backend/main.go:48-77 | A fresh entry under `"search:"+query` is replayed with no upstream call and no cache change. Any upstream call goes to the `track.search` URL for the query. A fetched reply is `results.trackmatches.track`, stored under the search key. A transport error leaves the cache unchanged. The cache gains at most that key and every other entry is left as it was. |
| `Backend.SearchKeepsRecommendEntries` | backend/main.go:50-74 | Serving a search never changes what a recommend key reads, because the two key forms never collide. |
| `Backend.ServeRecommend` | backend/main.go:79-108 | A fresh entry under `"rec:"+artist+":"+track` is replayed with no upstream call and no cache change. Any upstream call goes to the `track.getsimilar` URL for the pair. A fetched reply is `similartracks.track`, stored under the recommend key. A transport error leaves the cache unchanged. The cache gains at most that key and every other entry is left as it was. |
| `Backend.RecommendKeepsSearchEntries` | backend/main.go:82-105 | Serving a recommendation never changes what a search key reads. |
| `Backend.SearchKey` | backend/main.go:50 | The search key is `"search:"` followed by the query, unchanged. |
| `Backend.RecommendKey` | backend/main.go:82 | The recommend key is `"rec:"`, the artist, a colon, then the track. |
| `Backend.KeysDisjoint` | backend/main.go:50 | A search key (`"search:"+q`, line 50) never equals a recommend key (`"rec:"+a+":"+t`, line 82). |
| `Backend.SearchKeyInjective` | backend/main.go:50 | Distinct queries have distinct search keys. |
| `Backend.RecommendKeyCollides` | backend/main.go:82 | The recommend key is not injective: `("a:b","c")` and `("a","b:c")` share `"rec:a:b:c"`. |
| `Backend.SeparatorPosition` | backend/main.go:82 | When the artist has no colon, the first colon after `rec:` is the one that ends the artist. |
| `Backend.RecommendKeyInjectiveWithoutColon` | backend/main.go:82 | When artists contain no colon, equal recommend keys mean equal artist and track. |
| `Backend.RepeatWithinTtlIsHit` | backend/main.go:52-76 | After a miss that stored a value, repeating the request before expiry gives the same reply, with no upstream call and no cache change. |
| `Backend.FailureIsForgotten` | backend/main.go:60-64 | After an upstream failure, the next request for the key is served as if the failed request had not happened. |
| `Extract.AsObject` | api/search.go:27 | The comma-ok map assertion gives an object's fields, or an empty (nil) map for anything else. |
| `Extract.Index` | api/search.go:29 | Indexing gives the stored value, or nil (`null`) for a missing key. |
| `Extract.Root` | api/search.go:24-25 | A decoded document is read as itself. A body that does not parse reads as nil, and the decode error is ignored. |
| `Extract.Lookup` | api/search.go:27-29 | The lookup returns the value at the end of the path when every level is an object that holds the next key. Otherwise it returns `null`. It never fails. |
| `Extract.LookupConcat` | api/search.go:27-29 | Looking up `p + q` equals looking up `p` and then `q`. This is the step-by-step form of the handlers' chain. |
| `Extract.LookupFromNull` | api/search.go:28-29 | Once a level is nil, every deeper lookup is nil. |
| `Extract.SearchTracks` | api/search.go:24-29 | If `results` and `trackmatches` are both objects, the output is `trackmatches.track`. If either is missing or not an object, or the body did not decode, the output is `null`. |
| `Extract.SimilarTracks` | api/recommend.go:25-29 | If `similartracks` is an object, the output is its `track`. Otherwise, and on a decode error, the output is `null`. |
| `LastFm.SearchUrl` | api/search.go:15 | The URL is the endpoint with `method=track.search&track=`, the escaped query, `&api_key=` and the unescaped key, then `&format=json&limit=10`. The query is its only escaped value. |
| `LastFm.SimilarUrl` | api/recommend.go:16 | The URL is the endpoint with `method=track.getsimilar&artist=`, the escaped artist, `&track=`, the escaped track, `&api_key=` and the unescaped key, then `&format=json&limit=30`. It escapes exactly the artist and then the track. |
| `LastFm.UrlsSeparateRequests` | api/recommend.go:16 | Distinct queries, and distinct artist/track pairs, give distinct URLs. A search URL never equals a recommend URL. |
| `Api.SearchHandler` | api/search.go:11-33 | The handler always calls the `track.search` URL. A transport error is a 500 with no track payload. A received body is answered with its `results.trackmatches.track`, which is `null` when `results` is missing or the body does not decode. |
| `Api.RecommendHandler` | api/recommend.go:11-33 | The handler always calls the `track.getsimilar` URL. A transport error is a 500 with no track payload. A received body is answered with its `similartracks.track`, which is `null` when `similartracks` is missing or the body does not decode. |
| `Api.SearchAgreesOnMiss` | backend/main.go:58-76 | On a cache miss, the server's search reply and upstream URL equal the serverless handler's. |
| `Api.RecommendAgreesOnMiss` | api/recommend.go:25-32 | On a cache miss, the server's recommend reply and upstream URL equal the serverless handler's, for every upstream outcome. |

## Left out

- Network I/O (`fetch`, `res.json`, `http.Get`) is left out. Each request's outcome is a parameter: `Completion` on the client and `Fetched` on the server.
- JSON parsing and encoding internals are left out. A body is either a decoded document or unparseable. Go's decoder reading only the first value of a body is not modelled.
- `url.QueryEscape` and `encodeURIComponent` are uninterpreted. An escaped value is a symbolic URL piece that holds what was escaped.
- JavaScript string conversion is left out. The parts of a concatenation such as `undefined + " " + name` are kept as values, not rendered as text.
- The Go server's `cacheMutex` and real interleavings of requests are left out. Each request is served atomically.
- Wall-clock time is left out. `time.Now` and `time.Since` become integer nanosecond readings. `time.Duration` saturation on overflow is not modelled.
- JSON numbers are reals. float64 rounding is not modelled.
- `cors`, `godotenv`, `ListenAndServe`, `log` and `console.error` are left out. The API key is a parameter.
- Response headers are left out. `http.Error`'s trailing newline and plain-text content type are left out too; an error reply is its status and message.
- JSX markup and styling are left out. So is `window.location.reload` (frontend/src/App.jsx:53), which simply restarts from the initial state.
- Render-time crashes are left out, such as a `null` candidate's `t.name` (frontend/src/App.jsx:98). A `null` recommendation's links are modelled as absent.
- Strings that `encodeURIComponent` rejects (lone surrogates) cannot occur, because Dafny characters are Unicode scalar values.
- Last.fm's matching and similarity behaviour is left out.
- Stale-response discarding, a clear-query control and a help popover are not modelled, because none of them exists in the code.
- `Sessions.SequentialStep`: a selection is allowed only for a track in the current candidate list. That is the only place the page offers one.
- `JsSemantics.Member`: built-in properties, such as a string's `length`, are not modelled. The client reads only `artist` and `name`, which no non-object JSON value has.

=== FILE: api.dfy ===
/** The serverless handlers: the same upstream call and extraction as the
    long-running server, with no cache, so every request goes upstream. */
module Api {
  import opened Json
  import opened Optional
  import opened Url
  import opened Extract
  import opened TtlCache
  import opened Backend
  import LastFm

  /** The reply and the upstream URL that was fetched to produce it. */
  datatype Handled = Handled(response: Response, upstream: Url)

  /** `api/search.go`'s `Handler`. */
  function SearchHandler(query: string, apiKey: string, fetched: Fetched): (r: Handled)
    ensures r.upstream == LastFm.SearchUrl(query, apiKey)
    ensures fetched.TransportError? ==> r.response == ErrorReply(500, fetched.message)
    ensures fetched.Received? && !HasObject(Root(fetched.body), "results")
            ==> r.response == JsonReply(JNull)
    ensures fetched.Received? && fetched.body.Unparseable? ==> r.response == JsonReply(JNull)
    ensures fetched.Received? ==> r.response == JsonReply(SearchTracks(fetched.body))
  {
    var url := LastFm.SearchUrl(query, apiKey);
    match fetched
    case TransportError(m) => Handled(ErrorReply(500, m), url)
    case Received(b) => Handled(JsonReply(SearchTracks(b)), url)
  }

  /** `api/recommend.go`'s `Handler`. */
  function RecommendHandler(artist: string, track: string, apiKey: string,
                            fetched: Fetched): (r: Handled)
    ensures r.upstream == LastFm.SimilarUrl(artist, track, apiKey)
    ensures fetched.TransportError? ==> r.response == ErrorReply(500, fetched.message)
    ensures fetched.Received? && !HasObject(Root(fetched.body), "similartracks")
            ==> r.response == JsonReply(JNull)
    ensures fetched.Received? && fetched.body.Unparseable? ==> r.response == JsonReply(JNull)
    ensures fetched.Received? ==> r.response == JsonReply(SimilarTracks(fetched.body))
  {
    var url := LastFm.SimilarUrl(artist, track, apiKey);
    match fetched
    case TransportError(m) => Handled(ErrorReply(500, m), url)
    case Received(b) => Handled(JsonReply(SimilarTracks(b)), url)
  }

  /** On a cache miss the server answers a search exactly as the serverless
      handler does, from the same upstream URL. */
  lemma SearchAgreesOnMiss(c: Cache, query: string, apiKey: string, fetched: Fetched,
                           lookupAt: int, storeAt: int)
    requires Get(c, SearchKey(query), lookupAt).None?
    ensures var served := ServeSearch(c, query, apiKey, fetched, lookupAt, storeAt);
            var handled := SearchHandler(query, apiKey, fetched);
            served.response == handled.response && served.upstream == Some(handled.upstream)
  {
  }

  /** On a cache miss the server answers a recommendation request exactly as
      the serverless handler does, from the same upstream URL. */
  lemma RecommendAgreesOnMiss(c: Cache, artist: string, track: string, apiKey: string,
                              fetched: Fetched, lookupAt: int, storeAt: int)
    requires Get(c, RecommendKey(artist, track), lookupAt).None?
    ensures var served := ServeRecommend(c, artist, track, apiKey, fetched, lookupAt, storeAt);
            var handled := RecommendHandler(artist, track, apiKey, fetched);
            served.response == handled.response && served.upstream == Some(handled.upstream)
  {
  }
}

=== FILE: backend.dfy ===
/** The two HTTP handlers of the long-running Go server: a cache lookup,
    on a miss one upstream call, extraction of the track list, and caching
    of whatever was extracted. */
module Backend {
  import opened Json
  import opened Optional
  import opened Url
  import opened Extract
  import opened TtlCache
  import LastFm

  /** The outcome of `http.Get`: a transport error, or a response whose body
      is then decoded (the status code is never inspected). */
  datatype Fetched = TransportError(message: string) | Received(body: Body)

  /** What the handler writes: JSON, or `http.Error(w, err.Error(), 500)`. */
  datatype Response = JsonReply(value: JSON) | ErrorReply(status: int, message: string)

  /** One request served: the reply, the cache afterwards, and the upstream
      URL fetched, if any. */
  datatype Served = Served(response: Response, cache: Cache, upstream: Option<Url>)

  /** `"search:" + query`. */
  function SearchKey(query: string): (k: string)
    ensures |k| == 7 + |query| && k[..7] == "search:" && k[7..] == query
  {
    "search:" + query
  }

  /** `"rec:" + artist + ":" + track`. */
  function RecommendKey(artist: string, track: string): (k: string)
    ensures |k| == 5 + |artist| + |track| && k[..4] == "rec:"
    ensures k[4..4 + |artist|] == artist && k[4 + |artist|] == ':'
    ensures k[5 + |artist|..] == track
  {
    "rec:" + artist + ":" + track
  }

  /** The flow both handlers share. `lookupAt` is the clock reading of the
      cache lookup and `storeAt` that of the later store; `fetched` is what
      the upstream call returns if it is made. */
  function ServeCached(c: Cache, key: string, url: Url, path: seq<string>,
                       fetched: Fetched, lookupAt: int, storeAt: int): (r: Served)
    // A fresh hit is replayed without an upstream call.
    ensures key in c && Fresh(c[key], lookupAt)
            ==> r == Served(JsonReply(c[key].data), c, None)
    // A miss calls upstream exactly once, with `url`.
    ensures !(key in c && Fresh(c[key], lookupAt)) ==> r.upstream == Some(url)
    // A transport error is a 500 and stores nothing.
    ensures !(key in c && Fresh(c[key], lookupAt)) && fetched.TransportError?
            ==> r.response == ErrorReply(500, fetched.message) && r.cache == c
    // Otherwise the extracted value, `null` included, is stored and returned.
    ensures !(key in c && Fresh(c[key], lookupAt)) && fetched.Received?
            ==> var v := Lookup(Root(fetched.body), path);
                r.response == JsonReply(v) && r.cache == c[key := CacheItem(v, storeAt)]
    // No key is ever dropped, expired or not.
    ensures c.Keys <= r.cache.Keys
  {
    match Get(c, key, lookupAt)
    case Some(data) => Served(JsonReply(data), c, None)
    case None =>
      match fetched
      case TransportError(m) => Served(ErrorReply(500, m), c, Some(url))
      case Received(b) =>
        var tracks := Lookup(Root(b), path);
        Served(JsonReply(tracks), Set(c, key, tracks, storeAt), Some(url))
  }

  /** `/api/search?q=query`. */
  function ServeSearch(c: Cache, query: string, apiKey: string, fetched: Fetched,
                       lookupAt: int, storeAt: int): (r: Served)
    ensures Get(c, SearchKey(query), lookupAt).Some?
            ==> r == Served(JsonReply(Get(c, SearchKey(query), lookupAt).value), c, None)
    ensures r.upstream.Some? ==> r.upstream.value == LastFm.SearchUrl(query, apiKey)
    ensures r.response.JsonReply? && r.upstream.Some?
            ==> (&& fetched.Received? && r.response.value == SearchTracks(fetched.body)
                 && r.cache == c[SearchKey(query) := CacheItem(SearchTracks(fetched.body), storeAt)])
    ensures fetched.TransportError? ==> r.cache == c
    ensures c.Keys <= r.cache.Keys <= c.Keys + {SearchKey(query)}
    ensures forall k :: k in c && k != SearchKey(query) ==> r.cache[k] == c[k]
  {
    ServeCached(c, SearchKey(query), LastFm.SearchUrl(query, apiKey), SearchPath,
                fetched, lookupAt, storeAt)
  }

  /** `/api/recommend?artist=artist&track=track`. */
  function ServeRecommend(c: Cache, artist: string, track: string, apiKey: string,
                          fetched: Fetched, lookupAt: int, storeAt: int): (r: Served)
    ensures Get(c, RecommendKey(artist, track), lookupAt).Some?
            ==> r == Served(JsonReply(Get(c, RecommendKey(artist, track), lookupAt).value), c, None)
    ensures r.upstream.Some? ==> r.upstream.value == LastFm.SimilarUrl(artist, track, apiKey)
    ensures r.response.JsonReply? && r.upstream.Some?
            ==> (&& fetched.Received? && r.response.value == SimilarTracks(fetched.body)
                 && r.cache
                    == c[RecommendKey(artist, track) := CacheItem(SimilarTracks(fetched.body), storeAt)])
    ensures fetched.TransportError? ==> r.cache == c
    ensures c.Keys <= r.cache.Keys <= c.Keys + {RecommendKey(artist, track)}
    ensures forall k :: k in c && k != RecommendKey(artist, track) ==> r.cache[k] == c[k]
  {
    ServeCached(c, RecommendKey(artist, track), LastFm.SimilarUrl(artist, track, apiKey),
                SimilarPath, fetched, lookupAt, storeAt)
  }

  /** A search key and a recommend key never collide: they differ in their
      first character. */
  lemma KeysDisjoint(query: string, artist: string, track: string)
    ensures SearchKey(query) != RecommendKey(artist, track)
  {
    assert SearchKey(query)[0] == 's';
    assert RecommendKey(artist, track)[0] == 'r';
  }

  /** A search never serves or overwrites a recommend entry: what any
      recommend key reads is the same after a search as before it. */
  lemma SearchKeepsRecommendEntries(c: Cache, query: string, apiKey: string, fetched: Fetched,
                                    lookupAt: int, storeAt: int,
                                    artist: string, track: string, now: int)
    ensures var after := ServeSearch(c, query, apiKey, fetched, lookupAt, storeAt).cache;
            Get(after, RecommendKey(artist, track), now) == Get(c, RecommendKey(artist, track), now)
  {
    KeysDisjoint(query, artist, track);
  }

  /** A recommendation never serves or overwrites a search entry. */
  lemma RecommendKeepsSearchEntries(c: Cache, artist: string, track: string, apiKey: string,
                                    fetched: Fetched, lookupAt: int, storeAt: int,
                                    query: string, now: int)
    ensures var after := ServeRecommend(c, artist, track, apiKey, fetched, lookupAt, storeAt).cache;
            Get(after, SearchKey(query), now) == Get(c, SearchKey(query), now)
  {
    KeysDisjoint(query, artist, track);
  }

  /** Distinct queries have distinct search keys. */
  lemma SearchKeyInjective(q: string, q': string)
    ensures SearchKey(q) == SearchKey(q') <==> q == q'
  {
    if SearchKey(q) == SearchKey(q') {
      assert q == SearchKey(q)[7..];
      assert q' == SearchKey(q')[7..];
    }
  }

  /** The recommend key does not separate artist from track: a colon may sit
      on either side of the separator. */
  lemma RecommendKeyCollides()
    ensures ("a:b", "c") != ("a", "b:c")
    ensures RecommendKey("a:b", "c") == RecommendKey("a", "b:c")
  {
  }

  /** In a recommend key whose artist has no colon, the first colon after
      the `rec:` prefix is the one that ends the artist. */
  lemma SeparatorPosition(artist: string, track: string)
    requires ':' !in artist
    ensures forall i :: 4 <= i < 4 + |artist| ==> RecommendKey(artist, track)[i] != ':'
    ensures RecommendKey(artist, track)[4 + |artist|] == ':'
  {
    var k := RecommendKey(artist, track);
    assert k == "rec:" + (artist + ":" + track);
    forall i | 4 <= i < 4 + |artist|
      ensures k[i] != ':'
    {
      assert k[i] == artist[i - 4];
    }
  }

  /** It does separate them when artists contain no colon. */
  lemma RecommendKeyInjectiveWithoutColon(a: string, t: string, a': string, t': string)
    requires ':' !in a && ':' !in a'
    ensures RecommendKey(a, t) == RecommendKey(a', t') <==> a == a' && t == t'
  {
    if RecommendKey(a, t) == RecommendKey(a', t') {
      var k := RecommendKey(a, t);
      SeparatorPosition(a, t);
      SeparatorPosition(a', t');
      assert |a| == |a'|;
      assert k == "rec:" + (a + ":" + t);
      assert a == k[4..4 + |a|];
      assert a' == RecommendKey(a', t')[4..4 + |a'|];
      assert t == k[5 + |a|..];
      assert t' == RecommendKey(a', t')[5 + |a'|..];
    }
  }

  /** After a miss that fetched and stored a value, repeating the request
      before the entry expires is a hit: the same reply, no upstream call and
      an unchanged cache. */
  lemma RepeatWithinTtlIsHit(c: Cache, key: string, url: Url, path: seq<string>,
                             body: Body, lookupAt: int, storeAt: int,
                             again: Fetched, later: int, laterStore: int)
    requires !(key in c && Fresh(c[key], lookupAt))
    requires later - storeAt < Ttl
    ensures var first := ServeCached(c, key, url, path, Received(body), lookupAt, storeAt);
            var second := ServeCached(first.cache, key, url, path, again, later, laterStore);
            && second.response == first.response
            && second.upstream == None
            && second.cache == first.cache
  {
    var first := ServeCached(c, key, url, path, Received(body), lookupAt, storeAt);
    assert key in first.cache && Fresh(first.cache[key], later);
  }

  /** An upstream failure leaves the cache as it was, so the next request
      for the same key is served exactly as if the failed one had not
      happened. */
  lemma FailureIsForgotten(c: Cache, key: string, url: Url, path: seq<string>,
                           message: string, lookupAt: int, storeAt: int,
                           next: Fetched, later: int, laterStore: int)
    ensures var first := ServeCached(c, key, url, path, TransportError(message), lookupAt, storeAt);
            ServeCached(first.cache, key, url, path, next, later, laterStore)
              == ServeCached(c, key, url, path, next, later, laterStore)
  {
  }
}

=== FILE: discovery.dfy ===
/** The browser client's discovery state machine. Each of the two async
    actions, `search` and `selectTrack`, is split at its `await`: a begin
    transition (the state updates made before the request, plus the request
    itself) and a complete transition (the updates made when the response,
    or its failure, arrives). No request generation is tracked: a response
    is applied whenever it arrives. */
module Discovery {
  import opened Json
  import opened Optional
  import opened Url
  import opened JsSemantics

  /** The five `useState` variables. `selectedTrack` holds `null` when no
      track is selected. */
  datatype State = State(
    query: string,
    searchResults: seq<JSON>,
    recommendations: seq<JSON>,
    selectedTrack: JSON,
    loading: bool)

  const Initial: State := State("", [], [], JNull, false)

  /** A request to the backend: the query as typed (not trimmed), or the
      selected track's `artist` and `name` properties. */
  datatype Request =
    | SearchCall(query: string)
    | RecommendCall(artist: JsValue, track: JsValue)

  /** The URL handed to `fetch`. */
  function RequestUrl(r: Request): (u: Url)
    ensures r.SearchCall? ==> UriComponent([Defined(JStr(r.query))]) in u
    ensures r.RecommendCall? ==> |u| == 4 && u[1] == UriComponent([r.artist])
                                 && u[3] == UriComponent([r.track])
  {
    match r
    case SearchCall(q) => [Text("/api/search?q="), UriComponent([Defined(JStr(q))])]
    case RecommendCall(a, t) =>
      [Text("/api/recommend?artist="), UriComponent([a]), Text("&track="), UriComponent([t])]
  }

  /** The outcome of awaiting `fetch` and then `res.json()`: the decoded
      payload, or a rejection of either (network failure, or a body that is
      not JSON, such as the backend's plain-text 500 reply). */
  datatype Completion = Ok(payload: JSON) | Err

  datatype Event =
    | Edit(text: string)          // the input's onChange
    | SubmitSearch                // Enter or the search button
    | SearchDone(c: Completion)   // the search request settles
    | Select(track: JSON)         // a click on a candidate
    | RecommendDone(c: Completion) // the recommend request settles

  /** The state after a transition and the request it issues, if any. */
  datatype Step = Step(next: State, request: Option<Request>)

  /** `setQuery(e.target.value)`. */
  function EditQuery(s: State, text: string): (r: State)
    ensures r.query == text
    ensures r.(query := s.query) == s
  {
    s.(query := text)
  }

  /** The begin half of `search`. A blank query changes nothing and issues
      nothing; otherwise loading starts, the recommendations and selection
      are cleared, the current candidates are left in place, and the query is
      sent as typed. */
  function BeginSearch(s: State): (r: Step)
    ensures Blank(s.query) ==> r == Step(s, None)
    ensures !Blank(s.query) ==> r.request == Some(SearchCall(s.query))
    ensures !Blank(s.query) ==> r.next == State(s.query, s.searchResults, [], JNull, true)
  {
    if Trim(s.query) == [] then Step(s, None)
    else Step(s.(loading := true, recommendations := [], selectedTrack := JNull),
              Some(SearchCall(s.query)))
  }

  /** The complete half of `search`. A payload that is an array replaces the
      candidates and any other payload clears them; a failure leaves them as
      they were. Loading ends either way (the `finally`). */
  function CompleteSearch(s: State, c: Completion): (r: State)
    ensures !r.loading
    ensures c.Ok? && c.payload.JArr? ==> r.searchResults == c.payload.items
    ensures c.Ok? && !c.payload.JArr? ==> r.searchResults == []
    ensures c.Err? ==> r.searchResults == s.searchResults
    ensures r.query == s.query && r.recommendations == s.recommendations
            && r.selectedTrack == s.selectedTrack
  {
    match c
    case Ok(d) => s.(searchResults := ArrayOrEmpty(d), loading := false)
    case Err => s.(loading := false)
  }

  /** The begin half of `selectTrack(track)`: loading starts, the track is
      selected and the candidates are cleared; the request carries
      `track.artist`, then `track.name`. For a `null` track, reading
      `track.artist` throws inside the `try` before anything is awaited, so
      the `catch` and `finally` run at once: no request, no
      recommendations, loading off. */
  function BeginSelect(s: State, track: JSON): (r: Step)
    ensures r.next.selectedTrack == track && r.next.searchResults == []
    ensures r.next.query == s.query
    ensures !track.JNull? ==> r.next.loading && r.next.recommendations == s.recommendations
    ensures !track.JNull? ==> r.request == Some(RecommendCall(Member(track, "artist"),
                                                              Member(track, "name")))
    ensures track.JNull? ==> !r.next.loading && r.next.recommendations == [] && r.request == None
  {
    var selected := s.(loading := true, selectedTrack := track, searchResults := []);
    if track.JNull? then Step(CompleteRecommend(selected, Err), None)
    else Step(selected, Some(RecommendCall(Member(track, "artist"), Member(track, "name"))))
  }

  /** The complete half of `selectTrack`. An array payload becomes the
      recommendations; any other payload, and any failure, empties them.
      Loading ends and the selection is kept. */
  function CompleteRecommend(s: State, c: Completion): (r: State)
    ensures !r.loading
    ensures c.Ok? && c.payload.JArr? ==> r.recommendations == c.payload.items
    ensures !(c.Ok? && c.payload.JArr?) ==> r.recommendations == []
    ensures r.query == s.query && r.searchResults == s.searchResults
            && r.selectedTrack == s.selectedTrack
  {
    match c
    case Ok(d) => s.(recommendations := ArrayOrEmpty(d), loading := false)
    case Err => s.(recommendations := [], loading := false)
  }

  /** The URLs the two begin halves fetch. The search URL escapes the query
      as typed: the blankness test trims, the request does not, so `" a "`
      is sent with its spaces. The recommend URL escapes `track.artist`
      and `track.name` as read from the selected track. */
  lemma FetchedUrls(s: State, track: JSON)
    ensures Blank(s.query) <==> BeginSearch(s).request.None?
    ensures !Blank(s.query) ==>
              RequestUrl(BeginSearch(s).request.value)
              == [Text("/api/search?q="), UriComponent([Defined(JStr(s.query))])]
    ensures !track.JNull? <==> BeginSelect(s, track).request.Some?
    ensures !track.JNull? ==>
              RequestUrl(BeginSelect(s, track).request.value)
              == [Text("/api/recommend?artist="), UriComponent([Member(track, "artist")]),
                  Text("&track="), UriComponent([Member(track, "name")])]
  {
  }

  /** One event, applied whenever it happens: the input's `onChange`, Enter
      or the search button, a click on a candidate, or a request settling.
      Only a submit and a click can issue a request, each of its own kind. */
  function Apply(s: State, e: Event): (r: Step)
    ensures e.Edit? ==> r == Step(s.(query := e.text), None)
    ensures e.SearchDone? || e.RecommendDone? ==> r.request.None? && !r.next.loading
    ensures e.SubmitSearch? && r.request.Some? ==> r.request.value == SearchCall(s.query)
    ensures e.Select? && r.request.Some?
            ==> r.request.value.RecommendCall? && r.next.selectedTrack == e.track
    ensures r.request.Some? ==> e.SubmitSearch? || e.Select?
  {
    match e
    case Edit(text) => Step(EditQuery(s, text), None)
    case SubmitSearch => BeginSearch(s)
    case SearchDone(c) => Step(CompleteSearch(s, c), None)
    case Select(t) => BeginSelect(s, t)
    case RecommendDone(c) => Step(CompleteRecommend(s, c), None)
  }

  /** The state after a sequence of events, in any order whatsoever. */
  function Run(s: State, es: seq<Event>): State
    decreases |es|
  {
    if es == [] then s else Run(Apply(s, es[0]).next, es[1..])
  }

  /** Running two sequences of events one after the other is running their
      concatenation. */
  lemma {:induction false} RunConcat(s: State, es: seq<Event>, fs: seq<Event>)
    ensures Run(s, es + fs) == Run(Run(s, es), fs)
    decreases |es|
  {
    if es == [] {
      assert es + fs == fs;
    } else {
      assert (es + fs)[0] == es[0];
      assert (es + fs)[1..] == es[1..] + fs;
      RunConcat(Apply(s, es[0]).next, es[1..], fs);
    }
  }
}

=== FILE: extract.dfy ===
/** How the Go handlers pull the track list out of the upstream response.
    Every step is total: a failed comma-ok type assertion yields a nil map,
    and indexing a nil map (or missing a key) yields a nil interface, which
    encodes as JSON `null`. */
module Extract {
  import opened Json

  /** The upstream response body as the decoder sees it: a JSON document, or
      text that is not JSON at all. */
  datatype Body = Parsed(value: JSON) | Unparseable

  /** `v.(map[string]interface{})` with the comma-ok form: the object's
      fields, or a nil map, which reads as empty. */
  function AsObject(v: JSON): (m: map<string, JSON>)
    ensures v.JObj? ==> m == v.fields
    ensures !v.JObj? ==> m == map[]
  {
    if v.JObj? then v.fields else map[]
  }

  /** `m[k]` on a `map[string]interface{}`: the stored value, or nil when
      the key is missing. A stored JSON `null` is nil as well. */
  function Index(m: map<string, JSON>, k: string): (r: JSON)
    ensures k in m ==> r == m[k]
    ensures k !in m ==> r == JNull
  {
    if k in m then m[k] else JNull
  }

  /** The value `json.Decoder.Decode(&result)` leaves to be read, with
      `result` a `map[string]interface{}`: a JSON object is read as its
      fields; `null`, any other JSON value (a type error) and unparseable
      text (a syntax error) all leave `result` nil. The error is discarded,
      so reading the root as `JNull` gives the same lookups. */
  function Root(b: Body): (r: JSON)
    ensures b.Parsed? ==> r == b.value
    ensures b.Unparseable? ==> r == JNull
  {
    match b
    case Parsed(v) => v
    case Unparseable => JNull
  }

  /** The path `path` leads from `v` to `w` through JSON objects that hold
      each key in turn. */
  ghost predicate Resolves(v: JSON, path: seq<string>, w: JSON)
    decreases |path|
  {
    if path == [] then w == v
    else v.JObj? && path[0] in v.fields && Resolves(v.fields[path[0]], path[1..], w)
  }

  /** A chain of comma-ok assertions and map indexings along `path`. It
      returns the value at the end of the path when the path resolves, and
      `null` otherwise; it never fails. */
  function Lookup(v: JSON, path: seq<string>): (r: JSON)
    ensures forall w :: Resolves(v, path, w) ==> r == w
    ensures r == JNull || Resolves(v, path, r)
    decreases |path|
  {
    if path == [] then v else Lookup(Index(AsObject(v), path[0]), path[1..])
  }

  /** Looking up `p + q` is looking up `p`, then `q` from there. */
  lemma {:induction false} LookupConcat(v: JSON, p: seq<string>, q: seq<string>)
    ensures Lookup(v, p + q) == Lookup(Lookup(v, p), q)
    decreases |p|
  {
    if p == [] {
      assert p + q == q;
    } else {
      assert (p + q)[0] == p[0];
      assert (p + q)[1..] == p[1..] + q;
      LookupConcat(Index(AsObject(v), p[0]), p[1..], q);
    }
  }

  /** Once a lookup hits `null`, every further step yields `null`: indexing
      a nil map yields nil. */
  lemma {:induction false} LookupFromNull(path: seq<string>)
    ensures Lookup(JNull, path) == JNull
    decreases |path|
  {
    if path != [] {
      LookupFromNull(path[1..]);
    }
  }

  const SearchPath: seq<string> := ["results", "trackmatches", "track"]
  const SimilarPath: seq<string> := ["similartracks", "track"]

  /** `v` is an object whose field `k` is itself an object, so the
      comma-ok assertion on `v[k]` succeeds. */
  predicate HasObject(v: JSON, k: string)
  {
    v.JObj? && k in v.fields && v.fields[k].JObj?
  }

  /** The search handlers' output: `results.trackmatches.track`. */
  function SearchTracks(b: Body): (r: JSON)
    ensures b.Unparseable? ==> r == JNull
    ensures !HasObject(Root(b), "results") ==> r == JNull
    ensures HasObject(Root(b), "results")
            && !HasObject(Root(b).fields["results"], "trackmatches")
            ==> r == JNull
    ensures HasObject(Root(b), "results")
            && HasObject(Root(b).fields["results"], "trackmatches")
            ==> r == Index(Root(b).fields["results"].fields["trackmatches"].fields, "track")
  {
    Lookup(Root(b), SearchPath)
  }

  /** The recommend handlers' output: `similartracks.track`. */
  function SimilarTracks(b: Body): (r: JSON)
    ensures b.Unparseable? ==> r == JNull
    ensures !HasObject(Root(b), "similartracks") ==> r == JNull
    ensures HasObject(Root(b), "similartracks")
            ==> r == Index(Root(b).fields["similartracks"].fields, "track")
  {
    Lookup(Root(b), SimilarPath)
  }
}

=== FILE: js_semantics.dfy ===
/** The few pieces of JavaScript semantics the client relies on:
    `String.prototype.trim`, truthiness, and property access on decoded JSON. */
module JsSemantics {
  import opened Json

  /** The characters `trim` removes: ECMAScript WhiteSpace (TAB, VT, FF,
      ZWNBSP and every Unicode space separator) and LineTerminator (LF, CR,
      LS, PS). */
  const JsWhitespace: set<char> :=
    {'\U{9}', '\U{B}', '\U{C}', '\U{FEFF}', '\U{20}', '\U{A0}', '\U{1680}',
     '\U{2000}', '\U{2001}', '\U{2002}', '\U{2003}', '\U{2004}', '\U{2005}',
     '\U{2006}', '\U{2007}', '\U{2008}', '\U{2009}', '\U{200A}',
     '\U{202F}', '\U{205F}', '\U{3000}',
     '\U{A}', '\U{D}', '\U{2028}', '\U{2029}'}

  predicate IsJsWhitespace(c: char)
  {
    c in JsWhitespace
  }

  /** Every character of `s` is whitespace (so `s.trim()` is falsy). */
  predicate Blank(s: string)
    decreases |s|
  {
    s == [] || (IsJsWhitespace(s[0]) && Blank(s[1..]))
  }

  /** `Blank` is the character-wise test. */
  lemma {:induction false} BlankIffAllWhitespace(s: string)
    ensures Blank(s) <==> forall i :: 0 <= i < |s| ==> IsJsWhitespace(s[i])
    decreases |s|
  {
    if s != [] {
      BlankIffAllWhitespace(s[1..]);
      assert forall i :: 1 <= i < |s| ==> s[i] == s[1..][i - 1];
    }
  }

  /** Leading whitespace removed: `r` is a suffix of `s`, everything cut off
      is whitespace, and `r` does not start with whitespace. */
  function TrimStart(s: string): (r: string)
    ensures |r| <= |s| && r == s[|s| - |r|..]
    ensures forall i :: 0 <= i < |s| - |r| ==> IsJsWhitespace(s[i])
    ensures r == [] || !IsJsWhitespace(r[0])
    decreases |s|
  {
    if |s| > 0 && IsJsWhitespace(s[0]) then TrimStart(s[1..]) else s
  }

  /** Trailing whitespace removed: `r` is a prefix of `s`, everything cut off
      is whitespace, and `r` does not end with whitespace. */
  function TrimEnd(s: string): (r: string)
    ensures |r| <= |s| && r == s[..|r|]
    ensures forall i :: |r| <= i < |s| ==> IsJsWhitespace(s[i])
    ensures r == [] || !IsJsWhitespace(r[|r| - 1])
    decreases |s|
  {
    if |s| > 0 && IsJsWhitespace(s[|s| - 1]) then TrimEnd(s[..|s| - 1]) else s
  }

  /** `s.trim()`: the slice of `s` left once the whitespace at both ends is
      cut off. It is empty exactly when `s` is blank, which is what
      `!query.trim()` tests. */
  function Trim(s: string): (r: string)
    ensures r == [] <==> Blank(s)
    ensures r == [] || (!IsJsWhitespace(r[0]) && !IsJsWhitespace(r[|r| - 1]))
  {
    BlankIffAllWhitespace(s);
    TrimEnd(TrimStart(s))
  }

  /** `r` is the slice of `s` starting at `i`, and everything before and
      after it is whitespace. */
  predicate TrimmedSliceAt(s: string, i: int, r: string)
  {
    && 0 <= i && i + |r| <= |s| && r == s[i..i + |r|]
    && (forall j :: 0 <= j < i ==> IsJsWhitespace(s[j]))
    && (forall j :: i + |r| <= j < |s| ==> IsJsWhitespace(s[j]))
  }

  /** A prefix `r` of a suffix `t` of `s` is a slice of `s`; whitespace cut
      off either end of the way stays outside it. */
  lemma WhitespaceAroundSlice(s: string, t: string, r: string)
    requires |t| <= |s| && t == s[|s| - |t|..]
    requires |r| <= |t| && r == t[..|r|]
    requires forall j :: 0 <= j < |s| - |t| ==> IsJsWhitespace(s[j])
    requires forall j :: |r| <= j < |t| ==> IsJsWhitespace(t[j])
    ensures TrimmedSliceAt(s, |s| - |t|, r)
  {
    var i := |s| - |t|;
    forall j | i + |r| <= j < |s|
      ensures IsJsWhitespace(s[j])
    {
      assert s[j] == t[j - i];
    }
  }

  /** Trimming keeps a contiguous slice of `s`, starting where the leading
      whitespace ends, with only whitespace around it. */
  lemma {:induction false} TrimKeepsMiddle(s: string)
    ensures TrimmedSliceAt(s, |s| - |TrimStart(s)|, Trim(s))
  {
    var t := TrimStart(s);
    var r := TrimEnd(t);
    assert Trim(s) == r;
    WhitespaceAroundSlice(s, t, r);
  }

  /** JavaScript truthiness of a decoded value: everything except the falsy
      values JSON can hold (`null`, `false`, `0`, `""`; JSON has no NaN). */
  predicate Truthy(v: JSON)
    ensures Truthy(v) <==> !(v == JNull || v == JBool(false) || v == JNum(0.0) || v == JStr(""))
  {
    match v
    case JNull => false
    case JBool(b) => b
    case JNum(n) => n != 0.0
    case JStr(s) => s != ""
    case JArr(_) => true
    case JObj(_) => true
  }

  /** `v.k` on a non-null value: an own field of an object, and `undefined`
      otherwise. Access on `null` throws, so it is excluded. The contract is
      meant for the keys the client reads, `artist` and `name`, which no
      string, number, boolean or array has as a property; it does not model
      built-in properties such as a string's `length`. */
  function Member(v: JSON, k: string): (r: JsValue)
    requires !v.JNull?
    ensures r.Defined? <==> v.JObj? && k in v.fields
    ensures r.Defined? ==> r.json == v.fields[k]
  {
    if v.JObj? && k in v.fields then Defined(v.fields[k]) else Undefined
  }

  /** `v?.k`: `undefined` when `v` is `null` or `undefined`, otherwise `v.k`. */
  function OptionalMember(v: JsValue, k: string): (r: JsValue)
    ensures (v.Undefined? || v.json.JNull?) ==> r.Undefined?
    ensures r.Defined? <==> v.Defined? && v.json.JObj? && k in v.json.fields
    ensures r.Defined? ==> r.json == v.json.fields[k]
  {
    match v
    case Undefined => Undefined
    case Defined(j) => if j.JNull? then Undefined else Member(j, k)
  }
}

=== FILE: json.dfy ===
/** Decoded JSON values, shared by the Go handlers (where a decoded value is
    an `interface{}`) and the browser client (where it is a JavaScript value
    produced by `res.json()`). */
module Json {

  /** A decoded JSON document. Numbers are kept as reals; the float64
      rounding of both runtimes is not modelled. Go's nil interface and
      JavaScript's `null` are both `JNull`. */
  datatype JSON =
    | JNull
    | JBool(b: bool)
    | JNum(n: real)
    | JStr(s: string)
    | JArr(items: seq<JSON>)
    | JObj(fields: map<string, JSON>)

  /** A JavaScript value read out of decoded JSON: a property access can also
      produce `undefined`, which no JSON document contains. */
  datatype JsValue = Undefined | Defined(json: JSON)

  /** `Array.isArray(v) ? v : []` — the client's only shape check on a
      response payload. */
  function ArrayOrEmpty(v: JSON): (r: seq<JSON>)
    ensures v.JArr? ==> r == v.items
    ensures !v.JArr? ==> r == []
  {
    if v.JArr? then v.items else []
  }
}

=== FILE: lastfm.dfy ===
/** The upstream (Last.fm) request URLs the Go handlers build with
    `fmt.Sprintf`. The API key is spliced in unescaped. */
module LastFm {
  import opened Url

  const Endpoint: string := "http://ws.audioscrobbler.com/2.0/?method="
  /** The fixed text before the escaped query of a `track.search` call. */
  const SearchPrefix: string := Endpoint + "track.search&track="
  /** The fixed text before the escaped artist of a `track.getsimilar` call. */
  const SimilarPrefix: string := Endpoint + "track.getsimilar&artist="

  /** `track.search` with the query escaped, ten results. */
  function SearchUrl(query: string, apiKey: string): (u: Url)
    ensures |u| == 5 && u[0] == Text(SearchPrefix)
    ensures u[1] == QueryEscaped(query) && u[2] == Text("&api_key=") && u[3] == Text(apiKey)
    ensures u[4] == Text("&format=json&limit=10")
    ensures EscapedValues(u) == [QueryEscaped(query)]
  {
    var u := [Text(SearchPrefix), QueryEscaped(query),
              Text("&api_key="), Text(apiKey), Text("&format=json&limit=10")];
    EscapedOfOneValue(u);
    u
  }

  /** `track.getsimilar` with the artist escaped before the track, thirty
      results. */
  function SimilarUrl(artist: string, track: string, apiKey: string): (u: Url)
    ensures |u| == 7 && u[0] == Text(SimilarPrefix)
    ensures u[1] == QueryEscaped(artist) && u[2] == Text("&track=") && u[3] == QueryEscaped(track)
    ensures u[4] == Text("&api_key=") && u[5] == Text(apiKey)
    ensures u[6] == Text("&format=json&limit=30")
    ensures EscapedValues(u) == [QueryEscaped(artist), QueryEscaped(track)]
  {
    var u := [Text(SimilarPrefix), QueryEscaped(artist),
              Text("&track="), QueryEscaped(track),
              Text("&api_key="), Text(apiKey), Text("&format=json&limit=30")];
    EscapedOfTwoValues(u);
    u
  }

  /** A five-piece URL whose only escaped piece is the second escapes
      exactly that one. */
  lemma EscapedOfOneValue(u: Url)
    requires |u| == 5 && !u[1].Text?
    requires u[0].Text? && u[2].Text? && u[3].Text? && u[4].Text?
    ensures EscapedValues(u) == [u[1]]
  {
    EscapedOfTail(u[4..]);
    EscapedOfTail(u[3..]);
    EscapedOfTail(u[2..]);
    EscapedOfTail(u[1..]);
    EscapedOfTail(u);
    assert u[4..][1..] == [];
  }

  /** A seven-piece URL whose only escaped pieces are the second and the
      fourth escapes exactly those two. */
  lemma EscapedOfTwoValues(u: Url)
    requires |u| == 7 && !u[1].Text? && !u[3].Text?
    requires u[0].Text? && u[2].Text? && u[4].Text? && u[5].Text? && u[6].Text?
    ensures EscapedValues(u) == [u[1], u[3]]
  {
    EscapedOfTail(u[6..]);
    EscapedOfTail(u[5..]);
    EscapedOfTail(u[4..]);
    EscapedOfTail(u[3..]);
    EscapedOfTail(u[2..]);
    EscapedOfTail(u[1..]);
    EscapedOfTail(u);
    assert u[6..][1..] == [];
  }

  /** Distinct queries give distinct search URLs, and the two endpoints'
      URLs never coincide. Unlike the backend's cache key, the upstream URL
      keeps artist and track apart: distinct pairs give distinct URLs. */
  lemma UrlsSeparateRequests(q: string, q': string, a: string, t: string,
                             a': string, t': string, key: string)
    ensures SearchUrl(q, key) == SearchUrl(q', key) <==> q == q'
    ensures SimilarUrl(a, t, key) == SimilarUrl(a', t', key) <==> a == a' && t == t'
    ensures SearchUrl(q, key) != SimilarUrl(a, t, key)
  {
    if SearchUrl(q, key) == SearchUrl(q', key) {
      assert SearchUrl(q, key)[1] == SearchUrl(q', key)[1];
    }
    if SimilarUrl(a, t, key) == SimilarUrl(a', t', key) {
      assert SimilarUrl(a, t, key)[1] == SimilarUrl(a', t', key)[1];
      assert SimilarUrl(a, t, key)[3] == SimilarUrl(a', t', key)[3];
    }
    assert |SearchUrl(q, key)| != |SimilarUrl(a, t, key)|;
  }
}

=== FILE: links.dfy ===
/** The three outbound links on each recommendation card. Each one escapes
    the same JavaScript expression, `track.artist?.name + " " + track.name`,
    behind its service's fixed search prefix. */
module Links {
  import opened Json
  import opened Optional
  import opened Url
  import opened JsSemantics

  const YoutubePrefix: string := "https://www.youtube.com/results?search_query="
  const SpotifyPrefix: string := "https://open.spotify.com/search/"
  const ApplePrefix: string := "https://music.apple.com/br/search?term="

  datatype LinkSet = LinkSet(youtube: Url, spotify: Url, apple: Url)

  /** The parts concatenated into the search term: the artist's name (read
      with optional chaining, so a missing or `null` artist gives
      `undefined`), a space, and the track's name. */
  function SearchTerm(track: JSON): (parts: seq<JsValue>)
    requires !track.JNull?
    ensures |parts| == 3 && parts[1] == Defined(JStr(" "))
    ensures parts[2] == Member(track, "name")
    ensures parts[0].Defined? <==> (track.JObj? && "artist" in track.fields
                                    && track.fields["artist"].JObj?
                                    && "name" in track.fields["artist"].fields)
    ensures parts[0].Defined? ==> parts[0].json == track.fields["artist"].fields["name"]
    ensures !(track.JObj? && "artist" in track.fields) ==> parts[0] == Undefined
  {
    [OptionalMember(Member(track, "artist"), "name"), Defined(JStr(" ")), Member(track, "name")]
  }

  /** The card's links. Reading `track.artist` on a `null` entry throws
      while the card renders, so a `null` recommendation has no links. */
  function CardLinks(track: JSON): (r: Option<LinkSet>)
    ensures r.Some? <==> !track.JNull?
    ensures r.Some? ==> && |r.value.youtube| == 2 && |r.value.spotify| == 2 && |r.value.apple| == 2
                        && r.value.youtube[1] == r.value.spotify[1] == r.value.apple[1]
                        && r.value.youtube[1] == UriComponent(SearchTerm(track))
    ensures r.Some? ==> && r.value.youtube[0] == Text(YoutubePrefix)
                        && r.value.spotify[0] == Text(SpotifyPrefix)
                        && r.value.apple[0] == Text(ApplePrefix)
    ensures r.Some? ==> && r.value.youtube[0] != r.value.spotify[0]
                        && r.value.spotify[0] != r.value.apple[0]
                        && r.value.youtube[0] != r.value.apple[0]
  {
    if track.JNull? then None
    else
      var term := UriComponent(SearchTerm(track));
      Some(LinkSet([Text(YoutubePrefix), term], [Text(SpotifyPrefix), term], [Text(ApplePrefix), term]))
  }

  /** The card for "Billie Jean" by Michael Jackson links to searches for
      "Michael Jackson", a space and "Billie Jean" on all three services. */
  lemma BillieJeanLinks()
    ensures var track := JObj(map["name" := JStr("Billie Jean"),
                                  "artist" := JObj(map["name" := JStr("Michael Jackson")])]);
            var term := UriComponent([Defined(JStr("Michael Jackson")), Defined(JStr(" ")),
                                      Defined(JStr("Billie Jean"))]);
            CardLinks(track) == Some(LinkSet([Text(YoutubePrefix), term],
                                             [Text(SpotifyPrefix), term],
                                             [Text(ApplePrefix), term]))
  {
  }
}

=== FILE: option.dfy ===
/** A value that may be absent: a cache miss, a request not issued, a
    transition refused. */
module Optional {

  datatype Option<+T> = None | Some(value: T)
}

=== FILE: sessions.dfy ===
/** Runs of the client state machine. A sequential run is one in which
    every request settles before the user starts the next search or
    selection (typing is allowed at any time) and a candidate can be picked
    only while it is listed. The invariants below hold along sequential runs
    only; the interleaved runs at the end break them, since the client keeps
    no request generation and applies every response when it arrives. */
module Sessions {
  import opened Json
  import opened Optional
  import opened JsSemantics
  import opened Discovery
  import opened DiscoveryView

  datatype Pending = NothingPending | SearchPending | RecommendPending

  /** The client state and the request, if any, that has not settled. */
  datatype Session = Session(ui: State, pending: Pending)

  const Start: Session := Session(Initial, NothingPending)

  /** One event of a sequential run, or `None` when the event would break
      the sequential discipline. */
  function SequentialStep(x: Session, e: Event): (r: Option<Session>)
    ensures r.Some? ==> r.value.ui == Apply(x.ui, e).next
    ensures r.Some? ==> (r.value.pending != NothingPending <==> Apply(x.ui, e).request.Some?)
                        || (e.Edit? && r.value.pending == x.pending)
    ensures r.Some? <==> || e.Edit?
                         || (e.SubmitSearch? && x.pending == NothingPending)
                         || (e.SearchDone? && x.pending == SearchPending)
                         || (e.Select? && x.pending == NothingPending
                             && e.track in x.ui.searchResults)
                         || (e.RecommendDone? && x.pending == RecommendPending)
  {
    match e
    case Edit(text) => Some(Session(EditQuery(x.ui, text), x.pending))
    case SubmitSearch =>
      if x.pending != NothingPending then None
      else
        var st := BeginSearch(x.ui);
        Some(Session(st.next, if st.request.Some? then SearchPending else NothingPending))
    case SearchDone(c) =>
      if x.pending != SearchPending then None
      else Some(Session(CompleteSearch(x.ui, c), NothingPending))
    case Select(t) =>
      if x.pending != NothingPending || t !in x.ui.searchResults then None
      else
        var st := BeginSelect(x.ui, t);
        Some(Session(st.next, if st.request.Some? then RecommendPending else NothingPending))
    case RecommendDone(c) =>
      if x.pending != RecommendPending then None
      else Some(Session(CompleteRecommend(x.ui, c), NothingPending))
  }

  /** A run of events under the sequential discipline. */
  function SequentialRun(x: Session, es: seq<Event>): Option<Session>
    decreases |es|
  {
    if es == [] then Some(x)
    else
      match SequentialStep(x, es[0])
      case None => None
      case Some(y) => SequentialRun(y, es[1..])
  }

  /** A selection clears the candidates, and loading is on exactly while a
      request is pending. (A pending search also implies no selection: that
      is what keeps the first conjunct true when the search settles.) */
  ghost predicate Inv(x: Session)
  {
    && (x.ui.selectedTrack != JNull ==> x.ui.searchResults == [])
    && (x.ui.loading <==> x.pending != NothingPending)
    && (x.pending == SearchPending ==> x.ui.selectedTrack == JNull)
  }

  lemma StepKeepsInv(x: Session, e: Event)
    requires Inv(x)
    ensures SequentialStep(x, e).Some? ==> Inv(SequentialStep(x, e).value)
  {
  }

  /** Both invariants hold after every sequential run from a state that
      satisfies them. */
  lemma {:induction false} RunKeepsInv(x: Session, es: seq<Event>)
    requires Inv(x)
    ensures SequentialRun(x, es).Some? ==> Inv(SequentialRun(x, es).value)
    decreases |es|
  {
    if es != [] {
      StepKeepsInv(x, es[0]);
      if SequentialStep(x, es[0]).Some? {
        RunKeepsInv(SequentialStep(x, es[0]).value, es[1..]);
      }
    }
  }

  /** A sequential run is an ordinary run of the client: it applies the same
      transitions, only in a restricted order. */
  lemma {:induction false} SequentialRunIsRun(x: Session, es: seq<Event>)
    ensures SequentialRun(x, es).Some? ==> SequentialRun(x, es).value.ui == Run(x.ui, es)
    decreases |es|
  {
    if es != [] && SequentialStep(x, es[0]).Some? {
      SequentialRunIsRun(SequentialStep(x, es[0]).value, es[1..]);
    }
  }

  /** Every state a sequential run reaches from page load has a selection
      only without candidates, is loading exactly while a request is
      pending, and, once loading ends, shows exactly one main panel. */
  lemma ReachableStatesAreConsistent(es: seq<Event>)
    requires SequentialRun(Start, es).Some?
    ensures Inv(SequentialRun(Start, es).value)
    ensures !SequentialRun(Start, es).value.ui.loading
            ==> OnePanel(Render(SequentialRun(Start, es).value.ui))
  {
    RunKeepsInv(Start, es);
    var x := SequentialRun(Start, es).value;
    if !x.ui.loading {
      SettledStateShowsOnePanel(x.ui);
    }
  }

  // ---------------------------------------------------------------------
  // Interleaved runs.

  const TrackA: JSON := JObj(map["name" := JStr("A"), "artist" := JStr("X")])
  const TrackB: JSON := JObj(map["name" := JStr("B"), "artist" := JStr("Y")])

  /** The queries "a" and "b" are not blank. */
  lemma LettersAreNotBlank()
    ensures !Blank("a") && !Blank("b")
  {
    assert "a"[0] == 'a' && !IsJsWhitespace('a');
    assert "b"[0] == 'b' && !IsJsWhitespace('b');
  }

  /** Submitting "a" or "b" starts a search for it. */
  lemma SubmitLetter(s: State)
    requires s.query == "a" || s.query == "b"
    ensures BeginSearch(s)
            == Step(s.(loading := true, recommendations := [], selectedTrack := JNull),
                    Some(SearchCall(s.query)))
  {
    LettersAreNotBlank();
  }

  /** A superseded search that settles last wins: search "a", then search
      "b", then "b" settles, then "a" settles. The candidates shown are the
      ones for "a" while the input reads "b". */
  lemma StaleSearchOverwritesNewer()
    ensures var s1 := Apply(Initial, Edit("a")).next;
            var s2 := Apply(s1, SubmitSearch).next;
            var s3 := Apply(s2, Edit("b")).next;
            var s4 := Apply(s3, SubmitSearch).next;
            var s5 := Apply(s4, SearchDone(Ok(JArr([TrackB])))).next;
            var s6 := Apply(s5, SearchDone(Ok(JArr([TrackA])))).next;
            && Apply(s1, SubmitSearch).request == Some(SearchCall("a"))
            && Apply(s3, SubmitSearch).request == Some(SearchCall("b"))
            && s6.query == "b" && s6.searchResults == [TrackA] && !s6.loading
  {
    var s1 := State("a", [], [], JNull, false);
    var s2 := State("a", [], [], JNull, true);
    var s3 := State("b", [], [], JNull, true);
    var s5 := State("b", [TrackB], [], JNull, false);
    assert Apply(Initial, Edit("a")) == Step(s1, None);
    assert Apply(s1, SubmitSearch) == Step(s2, Some(SearchCall("a"))) by {
      SubmitLetter(s1);
    }
    assert Apply(s2, Edit("b")) == Step(s3, None);
    assert Apply(s3, SubmitSearch) == Step(s3, Some(SearchCall("b"))) by {
      SubmitLetter(s3);
    }
    assert Apply(s3, SearchDone(Ok(JArr([TrackB])))) == Step(s5, None);
  }

  /** With two searches outstanding, the first to settle ends loading while
      the other is still pending. */
  lemma LoadingEndsWhileRequestPending()
    ensures var s1 := Apply(Initial, Edit("a")).next;
            var s2 := Apply(s1, SubmitSearch).next;
            var s3 := Apply(s2, Edit("b")).next;
            var s4 := Apply(s3, SubmitSearch).next;
            var s5 := Apply(s4, SearchDone(Err)).next;
            && Apply(s1, SubmitSearch).request.Some?
            && Apply(s3, SubmitSearch).request.Some?
            && !s5.loading
  {
    var s1 := State("a", [], [], JNull, false);
    var s2 := State("a", [], [], JNull, true);
    var s3 := State("b", [], [], JNull, true);
    assert Apply(Initial, Edit("a")) == Step(s1, None);
    assert Apply(s1, SubmitSearch) == Step(s2, Some(SearchCall("a"))) by {
      SubmitLetter(s1);
    }
    assert Apply(s2, Edit("b")) == Step(s3, None);
    assert Apply(s3, SubmitSearch) == Step(s3, Some(SearchCall("b"))) by {
      SubmitLetter(s3);
    }
    assert Apply(s3, SearchDone(Err)).next == s3.(loading := false);
  }

  /** The interleaved run behind `SelectionAndCandidatesTogether`, one
      step at a time. */
  lemma SelectDuringSearchSteps(s1: State, s2: State, s3: State, s4: State, s5: State,
                                s6: State)
    requires s1 == State("a", [], [], JNull, false)
    requires s2 == State("a", [], [], JNull, true)
    requires s3 == State("a", [TrackA], [], JNull, false)
    requires s4 == State("a", [TrackA], [], JNull, true)
    requires s5 == State("a", [], [], TrackA, true)
    requires s6 == State("a", [TrackB], [], TrackA, false)
    ensures Apply(Initial, Edit("a")).next == s1
    ensures Apply(s1, SubmitSearch).next == s2
    ensures Apply(s2, SearchDone(Ok(JArr([TrackA])))).next == s3
    ensures Apply(s3, SubmitSearch).next == s4
    ensures Apply(s4, Select(TrackA)).next == s5
    ensures Apply(s5, SearchDone(Ok(JArr([TrackB])))).next == s6
    ensures Apply(s6, RecommendDone(Ok(JArr([])))).next == s6
  {
    SubmitLetter(s1);
    SubmitLetter(s3);
  }

  /** The candidate list stays visible, and clickable, while a second search
      is loading. Picking one, then letting the search settle, leaves a
      selection alongside candidates: both panels render at once. */
  lemma SelectionAndCandidatesTogether()
    ensures var s1 := Apply(Initial, Edit("a")).next;
            var s2 := Apply(s1, SubmitSearch).next;
            var s3 := Apply(s2, SearchDone(Ok(JArr([TrackA])))).next;
            var s4 := Apply(s3, SubmitSearch).next;
            var s5 := Apply(s4, Select(TrackA)).next;
            var s6 := Apply(s5, SearchDone(Ok(JArr([TrackB])))).next;
            var s7 := Apply(s6, RecommendDone(Ok(JArr([])))).next;
            && Render(s4).loadingBanner && Render(s4).candidates
            && TrackA in s4.searchResults
            && s7.selectedTrack == TrackA && s7.searchResults == [TrackB]
            && Render(s7).candidates && Render(s7).trackPanel && !OnePanel(Render(s7))
  {
    var s4 := State("a", [TrackA], [], JNull, true);
    var s6 := State("a", [TrackB], [], TrackA, false);
    SelectDuringSearchSteps(State("a", [], [], JNull, false), State("a", [], [], JNull, true),
                            State("a", [TrackA], [], JNull, false), s4,
                            State("a", [], [], TrackA, true), s6);
    assert Truthy(TrackA);
    assert Render(s6).trackPanel && Render(s6).candidates;
  }

  /** The sequential run behind `CandidatesShownWhileSearching`, one step
      at a time. */
  lemma SearchAgainSteps(x1: Session, x2: Session, x3: Session, x4: Session)
    requires x1 == Session(State("a", [], [], JNull, false), NothingPending)
    requires x2 == Session(State("a", [], [], JNull, true), SearchPending)
    requires x3 == Session(State("a", [TrackA], [], JNull, false), NothingPending)
    requires x4 == Session(State("a", [TrackA], [], JNull, true), SearchPending)
    ensures SequentialStep(Start, Edit("a")) == Some(x1)
    ensures SequentialStep(x1, SubmitSearch) == Some(x2)
    ensures SequentialStep(x2, SearchDone(Ok(JArr([TrackA])))) == Some(x3)
    ensures SequentialStep(x3, SubmitSearch) == Some(x4)
  {
    SubmitLetter(x1.ui);
    SubmitLetter(x3.ui);
  }

  /** Even in a sequential run, a new search keeps the previous candidates
      on screen beneath the loading banner until it settles. */
  lemma CandidatesShownWhileSearching()
    ensures var es := [Edit("a"), SubmitSearch, SearchDone(Ok(JArr([TrackA]))), SubmitSearch];
            && SequentialRun(Start, es).Some?
            && SequentialRun(Start, es).value.ui.loading
            && Render(SequentialRun(Start, es).value.ui).candidates
  {
    var e0, e1, e2 := Edit("a"), SubmitSearch, SearchDone(Ok(JArr([TrackA])));
    var es := [e0, e1, e2, e1];
    var x1 := Session(State("a", [], [], JNull, false), NothingPending);
    var x2 := Session(State("a", [], [], JNull, true), SearchPending);
    var x3 := Session(State("a", [TrackA], [], JNull, false), NothingPending);
    var x4 := Session(State("a", [TrackA], [], JNull, true), SearchPending);
    SearchAgainSteps(x1, x2, x3, x4);
    assert SequentialRun(x3, [e1]) == Some(x4) by {
      assert [e1][1..] == [];
    }
    assert SequentialRun(x2, [e2, e1]) == Some(x4) by {
      assert [e2, e1][1..] == [e1];
    }
    assert SequentialRun(x1, [e1, e2, e1]) == Some(x4) by {
      assert [e1, e2, e1][1..] == [e2, e1];
    }
    assert es[1..] == [e1, e2, e1];
  }
}

=== FILE: ttl_cache.dfy ===
/** The backend's in-memory response cache: a map from key to the stored
    payload and the time it was stored, read back only while younger than
    the time-to-live. Time is a reading of Go's monotonic clock in
    nanoseconds, passed in explicitly. */
module TtlCache {
  import opened Json
  import opened Optional

  const Nanosecond: int := 1
  const Second: int := 1_000_000_000 * Nanosecond
  const Minute: int := 60 * Second
  /** `ttl = 30 * time.Minute`. */
  const Ttl: int := 30 * Minute

  datatype CacheItem = CacheItem(data: JSON, timestamp: int)

  type Cache = map<string, CacheItem>

  /** The entry is still fresh at `now`: `time.Since(timestamp) < ttl`. */
  predicate Fresh(item: CacheItem, now: int)
  {
    now - item.timestamp < Ttl
  }

  /** `getFromCache`: the stored data when the key is present and fresh,
      otherwise not found. The cache itself is not touched: an expired entry
      stays stored until overwritten. */
  function Get(c: Cache, key: string, now: int): (r: Option<JSON>)
    ensures r.Some? <==> key in c && now - c[key].timestamp < Ttl
    ensures r.Some? ==> r.value == c[key].data
  {
    if key in c && Fresh(c[key], now) then Some(c[key].data) else None
  }

  /** `setToCache`: stores `data` under `key`, stamped with `now`. */
  function Set(c: Cache, key: string, data: JSON, now: int): (c': Cache)
    ensures c'.Keys == c.Keys + {key}
    ensures c'[key] == CacheItem(data, now)
    ensures forall k :: k in c && k != key ==> c'[k] == c[k]
  {
    c[key := CacheItem(data, now)]
  }

  /** A stored value is read back, unchanged, for strictly less than the
      time-to-live after it was stored, and is reported missing from then
      on. */
  lemma GetAfterSet(c: Cache, key: string, data: JSON, storedAt: int, now: int)
    ensures now - storedAt < Ttl ==> Get(Set(c, key, data, storedAt), key, now) == Some(data)
    ensures now - storedAt >= Ttl ==> Get(Set(c, key, data, storedAt), key, now) == None
  {
  }

  /** The freshness test is strict: an entry exactly `Ttl` old is a miss,
      one nanosecond younger is a hit. */
  lemma ExpiryIsStrict(c: Cache, key: string, data: JSON, storedAt: int)
    ensures Get(Set(c, key, data, storedAt), key, storedAt + Ttl) == None
    ensures Get(Set(c, key, data, storedAt), key, storedAt + Ttl - Nanosecond) == Some(data)
  {
  }

  /** Storing under one key leaves what every other key reads unchanged. */
  lemma SetIsolatesKeys(c: Cache, key: string, other: string, data: JSON,
                        storedAt: int, now: int)
    requires other != key
    ensures Get(Set(c, key, data, storedAt), other, now) == Get(c, other, now)
  {
  }
}

=== FILE: url.dfy ===
/** URLs as the code builds them: literal text with escaped values spliced
    in. The escaping functions themselves (Go's `url.QueryEscape`, the
    browser's `encodeURIComponent`) are not interpreted: an escaped value is
    kept as a symbolic piece holding what was escaped. */
module Url {
  import opened Json

  datatype Piece =
    | Text(s: string)
      /** `url.QueryEscape(raw)` on the Go side. */
    | QueryEscaped(raw: string)
      /** `encodeURIComponent(p0 + p1 + ...)` on the browser side: the
          JavaScript string conversion of each part, concatenated, then
          escaped. */
    | UriComponent(parts: seq<JsValue>)

  type Url = seq<Piece>

  /** The escaped values of a URL, in order. */
  function EscapedValues(u: Url): (r: seq<Piece>)
    ensures |r| <= |u|
    ensures forall i :: 0 <= i < |r| ==> !r[i].Text?
    ensures forall i :: 0 <= i < |u| && !u[i].Text? ==> u[i] in r
  {
    if u == [] then []
    else if u[0].Text? then EscapedValues(u[1..])
    else [u[0]] + EscapedValues(u[1..])
  }

  /** Dropping a URL's first piece drops its escaped value, if it has one. */
  lemma EscapedOfTail(u: Url)
    requires u != []
    ensures EscapedValues(u) == (if u[0].Text? then [] else [u[0]]) + EscapedValues(u[1..])
  {
  }
}

=== FILE: view.dfy ===
/** Which parts of the page the client renders for a state: the four render
    guards, and the choice inside the selected-track panel between the
    recommendation grid and the "no recommendations" notice. Guards on the
    selection use JavaScript truthiness, as the code does. */
module DiscoveryView {
  import opened Json
  import opened JsSemantics
  import opened Discovery

  datatype View = View(
    loadingBanner: bool,     // "CARREGANDO..."
    candidates: bool,        // the list of search results to pick from
    trackPanel: bool,        // the selected track's header
    recommendationGrid: bool, // one card per recommendation
    noRecommendations: bool, // "Nenhuma recomendação encontrada."
    landing: bool)           // "MERGULHA NO SOM"

  function Render(s: State): (v: View)
    ensures v.loadingBanner <==> s.loading
    ensures s.loading ==> !v.trackPanel && !v.landing
    ensures v.landing ==> !v.candidates && !v.trackPanel && !v.loadingBanner
    ensures v.trackPanel ==> (v.recommendationGrid <==> !v.noRecommendations)
    ensures v.noRecommendations <==> v.trackPanel && s.recommendations == []
    ensures v.recommendationGrid ==> v.trackPanel && |s.recommendations| > 0
    ensures v.candidates <==> s.searchResults != []
  {
    var panel := Truthy(s.selectedTrack) && !s.loading;
    View(
      loadingBanner := s.loading,
      candidates := |s.searchResults| > 0,
      trackPanel := panel,
      recommendationGrid := panel && |s.recommendations| > 0,
      noRecommendations := panel && !(|s.recommendations| > 0),
      landing := !s.loading && !Truthy(s.selectedTrack) && |s.searchResults| == 0)
  }

  /** Exactly one of the three main panels is shown. */
  predicate OnePanel(v: View)
  {
    && (v.candidates ==> !v.trackPanel && !v.landing)
    && (v.trackPanel ==> !v.candidates && !v.landing)
    && (v.candidates || v.trackPanel || v.landing)
  }

  /** The landing panel shows exactly when nothing is loading, no track is
      selected and there are no candidates. */
  lemma LandingExactlyWhenEmpty(s: State)
    ensures Render(s).landing
            <==> !Render(s).loadingBanner && !Render(s).candidates && !Truthy(s.selectedTrack)
  {
  }

  /** Once nothing is loading, a state in which a selection excludes
      candidates shows exactly one main panel. */
  lemma SettledStateShowsOnePanel(s: State)
    requires !s.loading
    requires s.selectedTrack != JNull ==> s.searchResults == []
    ensures OnePanel(Render(s))
  {
  }

  /** When a search settles successfully after the selection was cleared,
      the landing panel shows exactly when the payload held no candidates
      (an empty array, or anything that is not an array). */
  lemma SettledSearchShowsLandingIffEmpty(s: State, payload: JSON)
    requires s.selectedTrack == JNull
    ensures Render(CompleteSearch(s, Ok(payload))).landing <==> ArrayOrEmpty(payload) == []
    ensures Render(CompleteSearch(s, Ok(payload))).candidates <==> ArrayOrEmpty(payload) != []
  {
  }

  /** A failed search leaves the previous candidates on screen; it does not
      return to the landing panel while there are any. */
  lemma FailedSearchKeepsCandidates(s: State)
    ensures Render(CompleteSearch(s, Err)).candidates <==> s.searchResults != []
    ensures s.searchResults != [] ==> !Render(CompleteSearch(s, Err)).landing
  {
  }

  /** Once a recommendation request for a (truthy) selected track settles,
      the panel shows, with the notice exactly when there is nothing to show:
      a failure, a non-array payload or an empty array. */
  lemma SettledRecommendShowsNoticeIffEmpty(s: State, c: Completion)
    requires Truthy(s.selectedTrack)
    ensures Render(CompleteRecommend(s, c)).trackPanel
    ensures Render(CompleteRecommend(s, c)).noRecommendations
            <==> !(c.Ok? && ArrayOrEmpty(c.payload) != [])
  {
  }
}
